=== FILE: README.md ===
# Library service: borrowing workflow model

A Dafny model of the core of a library-borrowing web service. The service has three tables: books, borrowings and payments. It has two transactional operations, borrowing a book (the borrowing serializer's `create`) and returning it (the return serializer's `update`). It also runs two periodic jobs: it reports overdue borrowings and it expires stale pending payments. The model keeps the whole persistent state as one immutable value, `Library.State`. That value holds a map of books, a map of borrowings, a map of payments, and the borrowing table's id sequence. Every request is a pure function from a state to the state it commits plus its response.

Conventions:

- Time is an integer number of seconds (`Common.Timestamp`). A day is 86400 seconds.
- Money is integer cents. A `DecimalField(max_digits=5, decimal_places=2)` holds at most 99999 cents in absolute value.
- A book's inventory is a `PositiveSmallIntegerField`, so it lies in 0..32767.
- The current time (`now`) and the current date (`today`, a day number) are parameters.
- Requests run one at a time.

Module layout, one module per file:

- `common.dfy`: `Option`, time and money.
- `books.dfy`: the book record and its cover enum.
- `borrowings.dfy`: the borrowing record.
- `payments.dfy`: the payment record, its status and type enums, and its newest-first listing order.
- `library.dfy`: the state, the database constraints (`Valid`), the errors, and the atomic block.
- `workflow.dfy`: the borrow and return transitions.
- `workflow_properties.dfy`: conservation, rollback, round trip, single return, and the null-date finding.
- `queries.dfy`: the borrowing list filter.
- `overdue.dfy`: the overdue selection.
- `payment_sweep.dfy`: the payment expiry sweep.
- `traces.dfy`: arbitrary request sequences, with the invariants extended to whole runs.

Modelling decisions:

- **Two invariants.** `Library.Valid` holds what the database schema itself enforces:
  - the column lengths and ranges;
  - the foreign keys from borrowing to book and from payment to borrowing;
  - row ids issued by the sequence.

  The transitions require only `Valid`. `Library.WellFormed` adds two rules the schema does not enforce: books pass field validation (no blank title or author), and every borrowing is due after it was made. It is proved preserved separately, because rows written outside the request handlers need not meet it.
- **Date order on borrow.** The borrow handler relies on a database constraint named `expected_return_date_after_borrow_date`, which it turns into an error. The constraint is missing from the borrowing migration (borrowing/migrations/0001_initial.py:17-28). The model enforces it as an explicit check when the row is inserted (the helper `Workflow.InsertBorrowing`). The contract of `Workflow.Borrow` states the effect.
- **The borrowing's user.** `user` is a read-only field of the borrowing serializer (borrowing/serializers.py:18). The view (borrowing/views.py:13-25) keeps the default `perform_create`, which saves without supplying one. So the serializer's `create`, as the view's default `perform_create` calls it, creates the row with no user. `Workflow.BorrowAsWritten` models that. `Workflow.Borrow` models the intended borrow, which records the requesting user. Over HTTP neither is reached as written: the view's permission check fails before any handler runs (see "## Left out").
- **Atomic blocks.** They are explicit. `Library.Atomic` keeps an attempt's writes on success and restores the pre-block rows of every table on failure. It is a helper: the contracts of `Workflow.Borrow`, `Workflow.ReturnBook` and `Workflow.ReturnAsWritten` state what it does for each transition.
  - The borrow decrements the inventory before the insert can fail.
  - The return stamps the date before the book is saved.
  - So both transitions really do roll back partial writes.
  - The borrowing id sequence is not rolled back, as PostgreSQL sequences are not transactional. An insert draws its id before any constraint is checked, so a rejected insert still uses up one id. `Library.State.nextBorrowingId` models the sequence, and `Library.SameRows` compares states without it.
- **Which return is reachable.** The return transitions model `BorrowingReturnBookSerializer.update` (borrowing/serializers.py:70-80), the only return logic that restores inventory. Neither borrowing/views.py nor books/views.py reaches that serializer:
  - the borrowing views use `BorrowingSerializer` (borrowing/views.py:21), where `actual_return_date` is read-only (borrowing/serializers.py:18);
  - the `return_book` action (borrowing/views.py:49-56) uses no serializer.

  So the null-date finding below is a defect of that method, which those views cannot trigger.
- **Inventory at 32767.** Saving an inventory outside the small-integer range is refused; the helper `Workflow.SaveInventory` models the save of the `inventory` column (books/models.py:19). This assumes a database that enforces the `smallint` range, as PostgreSQL does. So a return that would push a book past 32767 fails with `InventoryOutOfRange` and rolls back.
- **Overdue bound.** The overdue query compares a timestamp column with the date two days after today. The date counts as midnight at the start of that day: `(today + 2) * 86400`.
- **What the code does not do:**
  - The payment expiry task returns nothing.
  - The borrow and return handlers create no payment.
  - The return stamps the date its caller supplied, not the current time.
  - The expiry task reads the clock anew for every row. `PaymentSweep.ExpirePendingPayments` takes the readings as a non-decreasing sequence.

## Model

| member | source | states |
|---|---|---|
| Books.ParseCover | books/models.py:7-9 | only the two stored cover values "Hardcover" and "Paperback" are read back as a cover |
| Books.CoverRoundTrip | books/models.py:7-9 | each cover's stored value reads back as that cover |
| Books.CoverParsedRoundTrip | books/models.py:7-9 | a value read back as a cover is exactly that cover's stored value |
| Books.NewBook | books/models.py:12-19 | a submitted book validates exactly when the title is 1..100 characters, the author 1..120, the fee within 5 digits with 2 decimals, and the inventory within 0..32767; omitted fields default to fee 0.00 and inventory 0; the fee may be negative |
| Borrowings.NewBorrowing | borrowing/models.py:4-13 | a new borrowing has one user and one book, borrow date = creation time, the mandatory expected date, and a null return date (active) |
| Payments.ParseStatus | payment/models.py:9-12 | only "pending", "paid" and "expired" read back as a status |
| Payments.ParseType | payment/models.py:15-17 | only "payment" and "fine" read back as a type |
| Payments.StatusRoundTrip | payment/models.py:9-12 | status values round-trip in both directions |
| Payments.TypeRoundTrip | payment/models.py:15-17 | type values round-trip in both directions |
| Payments.NewPayment | payment/models.py:20-33 | a payment given only its borrowing defaults to status pending, type payment, 0.00 to pay and no session; it is valid |
| Payments.InsertNewestFirst | payment/models.py:38-39 | inserting a payment adds exactly that payment to the list |
| Payments.InsertKeepsBound | payment/models.py:38-39 | inserting a payment no newer than a time into rows no newer than it keeps every row no newer than it |
| Payments.InsertKeepsNewestFirst | payment/models.py:38-39 | inserting a payment into a newest-first list keeps it newest-first |
| Payments.ListNewestFirst | payment/models.py:38-39 | the listing is a permutation of the table's rows ordered by `created_at` descending |
| Workflow.Borrow | borrowing/serializers.py:20-41 | exactly one outcome for each case: unknown book and out of stock (inventory 0, checked before the dates) fail with the state unchanged; bad date order fails with every row unchanged and one sequence id used up; success stores one new active borrowing under a fresh id, decrements only that book's inventory, and changes nothing else |
| Workflow.BorrowAsWritten | borrowing/serializers.py:18-41 | the serializer's `create` as the view's default `perform_create` calls it, with no user supplied: unknown book and out of stock fail as before, and every in-stock borrow fails on the user column's NOT NULL constraint; no row ever changes, and only that failure uses up a sequence id |
| Workflow.ReturnBook | borrowing/serializers.py:70-80 | exactly one outcome for each case: an unknown borrowing, an already returned one, and one whose book is at 32767 copies each fail with the state unchanged; an active borrowing of a book below 32767 succeeds, stamps the supplied date, and increments only that book's inventory |
| Workflow.ReturnAsWritten | borrowing/serializers.py:70-80 | the method as written, for any supplied date including null: the same four outcomes under the same conditions as the corrected return, failures leave the state unchanged, and success stores the supplied date (null included) as the return date and increments only that book's inventory; with a date it is the corrected return |
| WorkflowProperties.BorrowPreservesValid | borrowing/serializers.py:27-33 | a borrow keeps every schema constraint: column ranges, foreign keys, fresh ids |
| WorkflowProperties.ReturnPreservesValid | borrowing/serializers.py:71-77 | a return keeps every schema constraint |
| WorkflowProperties.ReturnAsWrittenPreservesValid | borrowing/serializers.py:70-80 | the return as written keeps every schema constraint, with or without a date |
| WorkflowProperties.BorrowPreservesWellFormed | borrowing/serializers.py:27-38 | a borrow from a well-formed state keeps books valid and every borrowing due after it was made |
| WorkflowProperties.ReturnPreservesWellFormed | borrowing/serializers.py:70-80 | a return as written, with or without a date, keeps a well-formed state well-formed |
| WorkflowProperties.BorrowConservesStock | borrowing/serializers.py:27-33 | a borrow preserves inventory + active borrowings of every book, and no inventory goes negative |
| WorkflowProperties.ReturnConservesStock | borrowing/serializers.py:71-77 | a return preserves inventory + active borrowings of every book, and no inventory goes negative |
| WorkflowProperties.BorrowThenReturnRestoresInventory | borrowing/serializers.py:27-78 | a successful borrow followed by returning that borrowing succeeds and restores every book's inventory |
| WorkflowProperties.ReturnTwiceReturnsOnce | borrowing/serializers.py:71-80 | a second return fails as already returned, commits nothing, and the inventory grew by exactly one overall |
| WorkflowProperties.TransitionsKeepRows | borrowing/models.py:11-13 | no transition changes an existing borrowing's user, book, borrow date or expected date, and a returned borrowing's return date is never changed |
| WorkflowProperties.NullReturnDateInflatesStock | borrowing/serializers.py:71-77 | as written, returning with a null date succeeds, leaves the borrowing active, and adds a copy that was never lent |
| WorkflowProperties.BorrowAsWrittenFails | borrowing/serializers.py:18-39 | a concrete in-stock request with valid dates: the borrow without a user, as the view's default `perform_create` calls it, fails for want of a user, commits no row and uses up id 0, where the borrow with a user succeeds |
| WorkflowProperties.NullReturnDateTwice | borrowing/serializers.py:71-77 | a concrete library where two null-date returns of one loan leave two copies on the shelf of a book with one copy |
| BorrowingQueries.FilterBorrowings | borrowing/views.py:27-42 | the listing is exactly the borrowings that meet every given parameter (the active/returned condition, the user, the book), unchanged |
| BorrowingQueries.NoParamsListsAll | borrowing/views.py:27-42 | with no parameters every borrowing is listed |
| BorrowingQueries.UserFilterExact | borrowing/views.py:37-38 | `user_id` alone lists exactly that user's borrowings |
| BorrowingQueries.BookFilterExact | borrowing/views.py:39-40 | `book_id` alone lists exactly that book's borrowings |
| BorrowingQueries.ActiveFilterExact | borrowing/tests/test_borrowing.py:68-87 | `is_active=true` lists exactly the borrowings with a null return date |
| BorrowingQueries.FiltersCommute | borrowing/views.py:33-40 | the filters commute pairwise and their result is a subset of the input |
| BorrowingQueries.OtherActiveValueIgnored | borrowing/views.py:33-36 | an `is_active` value other than "true" or "false" does not filter |
| BorrowingQueries.FilterAsWritten | borrowing/views.py:33-40 | as written, `is_active` "true" or "false" fails with a type error; any other request lists what the intended filter lists |
| BorrowingQueries.ActiveFilterAsWrittenFails | borrowing/tests/test_borrowing.py:68-87 | on a reduced form of the test's scenario the view as written fails where the test expects the active borrowing |
| Overdue.SelectOverdue | borrowing/tasks.py:37-57 | every selected borrowing is unreturned and due strictly before midnight two days ahead; every such borrowing is selected; the count is the number selected |
| Overdue.BoundIsStrict | borrowing/tasks.py:38 | a borrowing due exactly at the bound is not reported |
| Overdue.ReportedGrowsWithTime | borrowing/tasks.py:37-40 | a borrowing reported today is still reported on any later day |
| PaymentSweep.ExpirePending | payment/tasks.py:15-20 | the sweep keeps every payment, changes only statuses, and only from pending to expired; afterwards no stale pending payment remains |
| PaymentSweep.ExpirePendingPayments | payment/tasks.py:15-20 | with the clock read anew for each row and never running backwards: every payment stale at the first reading is expired, none fresh at the last reading changes, the only change is pending to expired, and with a steady clock the result is exactly the swept table |
| PaymentSweep.SweepEffect | payment/tasks.py:16-20 | a pending payment created more than a day before `now` becomes expired; paid, expired, null-status and younger payments are untouched (the boundary is strict) |
| PaymentSweep.SweepIdempotent | payment/tasks.py:16-20 | for a fixed `now`, sweeping twice equals sweeping once |
| PaymentSweep.StaleGrowsWithTime | payment/tasks.py:18 | a payment stale at `now` is stale at any later time |
| Traces.Apply | borrowing/serializers.py:20-80 | any single borrow, call of the return serializer's update (date possibly null) or sweep keeps every schema constraint and the set of books |
| Traces.Run | borrowing/serializers.py:20-80 | any sequence of borrows, calls of the return serializer's update and sweeps keeps every schema constraint and the set of books |
| Traces.RunConservesStock | borrowing/serializers.py:27-33 | over any run whose returns carry a date, each book's inventory + active borrowings is constant and its inventory is never negative |
| Traces.RunKeepsRows | borrowing/models.py:11-13 | over any run, including dateless returns, no borrowing disappears or changes its user, book or dates, and a return date once set never changes |
| Traces.RunPreservesWellFormed | borrowing/serializers.py:20-80 | over any run from a well-formed state, books stay valid and every borrowing stays due after it was made |

## Left out

- Fee figures: money to pay, overdue days and the fee multiplier have no code in the modelled files. The borrowing record defines no such fields or properties.
- Payment creation and the payment provider's checkout session (payment/single_payment.py): a foreign API call. The borrow and return handlers create no payment.
- Chat-bot notifications: the messages sent around the overdue query, the new-borrowing notification, and aborting the loop when a delivery fails are all network I/O. Only the query and the count are modelled.
- The `return_book` view action (borrowing/views.py:49-56). It is meant to stamp the current time without restoring inventory, but as written it never does. `timezone` comes from `datetime` (borrowing/views.py:1), which has no `now`, so line 52 raises `AttributeError` before the save. Its method is declared as `"PATCH "` with a trailing space, so no `patch` handler is bound. The serializer's return transition is modelled instead.
- Permissions, including owner-only listing, and routing and serializer field lists. As written, `get_permissions` (borrowing/views.py:44-47) returns permission classes, not instances. The permission check then calls `has_permission` on a class and raises `TypeError` before any `BorrowingViewSet` handler runs, whether list, create, update or destroy. The model describes the handlers as they would behave once reached.
- Traces.Run: borrow requests go through the corrected `Workflow.Borrow`, which is given the requesting user. The borrow without a user (`Workflow.BorrowAsWritten`) never changes a row, so traces built from it would say nothing.
- Admin edits through the generic update and delete actions. Both are intended behaviour that the code as written never reaches:
  - `BorrowingViewSet` inherits update and destroy (borrowing/views.py:17-18). They are meant to let an admin change a loan's book or expected date, or delete a loan, without touching inventory. The permission check fails before either runs.
  - `BookViewSet` (books/views.py:10-19) is meant to let an admin set `inventory` directly (books/tests/test_books.py:64-71). Line 17 assigns an instance, `BookSerializer()`, to `serializer_class`, and calling that instance raises `TypeError` in every action.

  Such writes are not requests of `Traces.Run`, so the trace, row-keeping and conservation lemmas cover borrows, returns and sweeps only.
- Parsing of the `user_id` and `book_id` query strings: they are taken as already-read numbers, and `None` stands for absent or empty.
- Concurrency and transaction isolation: the stock check sits outside the atomic block, so two concurrent borrows can race. Each request is one sequential step here.
- Time zones: `today` and timestamps are assumed to be in the same frame.
- Periodic scheduling and migrations: infrastructure.
- Error message texts: the errors are a closed datatype. The messages appear as doc comments on its constructors.
- Payments.ListNewestFirst: rows with equal `created_at` come back in an unspecified order in the database. The model fixes one order and claims only newest-first and permutation.
- Overdue.SelectOverdue: works on the borrowing map passed by value. That no row is modified holds by construction; it is not a separate contract.

## Findings

| source | as written | input that shows it | evidently intended | confidence | as-written member | corrected member |
|---|---|---|---|---|---|---|
| borrowing/serializers.py:71-77 | the return guard tests for a null return date, then stamps whatever date the caller supplied, which may be null or omitted, and increments the inventory | `BorrowingReturnBookSerializer.update` called twice with `actual_return_date` absent or null on an active borrowing; no view in borrowing/views.py reaches this serializer | a return always stamps a date, so each loan is returned once | high (not executed) | Workflow.ReturnAsWritten, WorkflowProperties.NullReturnDateInflatesStock, WorkflowProperties.NullReturnDateTwice | Workflow.ReturnBook, WorkflowProperties.ReturnTwiceReturnsOnce |
| borrowing/serializers.py:18-39 | `user` is read-only on the borrow request, and the view (borrowing/views.py:13-25) saves without supplying it. So `Borrowing.objects.create` gets no user, the NOT NULL user column raises an integrity error, and line 39 re-raises it after the rollback | any borrow of an in-stock book with a valid date range that reaches the serializer's `create` through the view's default `perform_create`; over HTTP the permission check (borrowing/views.py:44-47) fails first | the borrowing is recorded for the requesting user | high (not executed) | Workflow.BorrowAsWritten, WorkflowProperties.BorrowAsWrittenFails | Workflow.Borrow, WorkflowProperties.BorrowConservesStock |
| borrowing/views.py:33-36 | `is_active` compares the timestamp column `actual_return_date` with the booleans `False`/`True`; the ORM cannot convert a boolean to a timestamp and raises a type error | `?is_active=true` (borrowing/tests/test_borrowing.py:82), once a request reaches `get_queryset`; over HTTP the permission check (borrowing/views.py:44-47) fails first | `is_active=true` lists borrowings with a null return date, `false` the returned ones | medium (not executed) | BorrowingQueries.FilterAsWritten, BorrowingQueries.ActiveFilterAsWrittenFails | BorrowingQueries.FilterBorrowings, BorrowingQueries.ActiveFilterExact |

=== FILE: books.dfy ===
/** The catalog: the `Book` record and its cover enum (books/models.py). */
module Books {

  import opened Common

  /** Largest value a `PositiveSmallIntegerField` can hold. */
  const MaxSmallInt: int := 32767
  const MaxTitleLength: nat := 100
  const MaxAuthorLength: nat := 120

  /** The stored values of the `BookCoverType` text choices. */
  datatype BookCoverType = Hard | Soft

  function CoverValue(c: BookCoverType): string {
    match c
    case Hard => "Hardcover"
    case Soft => "Paperback"
  }

  /** Reads a stored cover value back; anything but the two choice values is rejected. */
  function ParseCover(s: string): (r: Option<BookCoverType>)
    ensures r.Some? <==> s == "Hardcover" || s == "Paperback"
  {
    if s == "Hardcover" then Some(Hard)
    else if s == "Paperback" then Some(Soft)
    else None
  }

  lemma CoverRoundTrip(c: BookCoverType)
    ensures ParseCover(CoverValue(c)) == Some(c)
  {
  }

  lemma CoverParsedRoundTrip(s: string)
    ensures ParseCover(s).Some? ==> CoverValue(ParseCover(s).value) == s
  {
  }

  predicate ValidInventory(n: int) {
    0 <= n <= MaxSmallInt
  }

  datatype Book = Book(
    title: string,
    author: string,
    dailyFee: Cents,
    cover: Option<BookCoverType>,
    inventory: int)

  /**
   * What the book table's columns themselves enforce: the lengths of the two
   * character columns, the decimal's precision and the small-integer range.
   * `daily_fee` is not required to be non-negative.
   */
  predicate BookFitsColumns(b: Book) {
    && |b.title| <= MaxTitleLength
    && |b.author| <= MaxAuthorLength
    && ValidMoney(b.dailyFee)
    && ValidInventory(b.inventory)
  }

  /**
   * A book that also passes field validation: title and author are not
   * blank. Validation runs on submitted data, not on every save, so a stored
   * book need not meet it.
   */
  predicate ValidBook(b: Book) {
    && BookFitsColumns(b)
    && 0 < |b.title|
    && 0 < |b.author|
  }

  /**
   * Validates the submitted fields of a new book, filling the declared
   * defaults (`daily_fee` 0.00, no cover, `inventory` 0) for the ones left
   * out; `None` when a field fails its declaration.
   */
  function NewBook(title: string, author: string, dailyFee: Option<Cents>,
                   cover: Option<BookCoverType>, inventory: Option<int>): (r: Option<Book>)
    ensures r.Some? <==>
              && 0 < |title| <= MaxTitleLength && 0 < |author| <= MaxAuthorLength
              && (dailyFee.Some? ==> ValidMoney(dailyFee.value))
              && (inventory.Some? ==> ValidInventory(inventory.value))
    ensures r.Some? ==> ValidBook(r.value)
    ensures r.Some? ==> r.value.title == title && r.value.author == author && r.value.cover == cover
    ensures r.Some? && dailyFee.None? ==> r.value.dailyFee == 0
    ensures r.Some? && dailyFee.Some? ==> r.value.dailyFee == dailyFee.value
    ensures r.Some? && inventory.None? ==> r.value.inventory == 0
    ensures r.Some? && inventory.Some? ==> r.value.inventory == inventory.value
  {
    var fee := if dailyFee.Some? then dailyFee.value else 0;
    var stock := if inventory.Some? then inventory.value else 0;
    var b := Book(title, author, fee, cover, stock);
    if ValidBook(b) then Some(b) else None
  }
}

=== FILE: borrowings.dfy ===
/** The `Borrowing` record (borrowing/models.py). */
module Borrowings {

  import opened Common

  type UserId = int
  type BookId = int
  /** Row ids come from the table's auto-increment sequence. */
  type BorrowingId = nat

  /**
   * One user holding one copy of one book. `borrowDate` is stamped when the
   * row is created; `actualReturnDate` is null while the book is still out.
   */
  datatype Borrowing = Borrowing(
    user: UserId,
    book: BookId,
    borrowDate: Timestamp,
    expectedReturnDate: Timestamp,
    actualReturnDate: Option<Timestamp>)
  {
    predicate IsActive() {
      actualReturnDate.None?
    }
  }

  /** The row a borrow request creates: stamped with `now`, not yet returned. */
  function NewBorrowing(user: UserId, book: BookId, expected: Timestamp, now: Timestamp): (r: Borrowing)
    ensures r.IsActive()
    ensures r.user == user && r.book == book
    ensures r.borrowDate == now && r.expectedReturnDate == expected
  {
    Borrowing(user, book, now, expected, None)
  }

  /** The date-order rule every stored borrowing satisfies. */
  predicate DatesInOrder(b: Borrowing) {
    b.expectedReturnDate > b.borrowDate
  }

  /** `after` is `before` with at most its return date stamped: owner, book and dates stay fixed. */
  predicate SameIdentity(before: Borrowing, after: Borrowing) {
    && after.user == before.user
    && after.book == before.book
    && after.borrowDate == before.borrowDate
    && after.expectedReturnDate == before.expectedReturnDate
  }
}

=== FILE: common.dfy ===
/** Types shared by every part of the model. */
module Common {

  /** A nullable column. */
  datatype Option<+T> = None | Some(value: T)

  /** A point in time, in whole seconds. */
  type Timestamp = int

  const SecondsPerDay: int := 86400

  /** Money in integer cents. */
  type Cents = int

  /** A `DecimalField(max_digits=5, decimal_places=2)` holds at most 999.99, i.e. 99999 cents. */
  const MaxCents: int := 99999

  predicate ValidMoney(c: Cents) {
    -MaxCents <= c <= MaxCents
  }
}

=== FILE: library.dfy ===
/**
 * The whole persistent state the borrowing workflow acts on: the book,
 * borrowing and payment tables, with the constraints the database keeps.
 */
module Library {

  import opened Common
  import opened Books
  import opened Borrowings
  import opened Payments

  datatype State = State(
    books: map<BookId, Book>,
    borrowings: map<BorrowingId, Borrowing>,
    payments: map<PaymentId, PaymentRecord>,
    /** The borrowing table's auto-increment sequence: the id the next row receives. */
    nextBorrowingId: BorrowingId)

  /**
   * What the database schema guarantees of every committed state: the
   * columns' lengths and ranges, the foreign keys borrowing -> book and
   * payment -> borrowing, and row ids issued by the sequence.
   */
  predicate Valid(s: State) {
    && (forall b :: b in s.books ==> BookFitsColumns(s.books[b]))
    && (forall id :: id in s.borrowings ==> id < s.nextBorrowingId)
    && (forall id :: id in s.borrowings ==> s.borrowings[id].book in s.books)
    && (forall id :: id in s.payments ==> s.payments[id].borrowing in s.borrowings)
    && (forall id :: id in s.payments ==> ValidPayment(s.payments[id]))
  }

  /**
   * A state whose rows also meet the rules the schema does not enforce:
   * books pass field validation (no blank title or author) and every
   * borrowing is due after it was made. Rows written outside the request
   * handlers need not meet them.
   */
  predicate WellFormed(s: State) {
    && Valid(s)
    && (forall b :: b in s.books ==> ValidBook(s.books[b]))
    && (forall id :: id in s.borrowings ==> DatesInOrder(s.borrowings[id]))
  }

  /** The failures a borrow or return request can end with. */
  datatype Error =
    /** The submitted book id names no book; the request is rejected before the handler runs. */
    | UnknownBook
    /** "This book is out of stock." */
    | OutOfStock
    /** "Expected return date must be greater than borrow date." */
    | InvalidDateRange
    /** The borrowing to return does not exist (not found). */
    | UnknownBorrowing
    /** "This book has already been returned." */
    | AlreadyReturned
    /** Inserting a borrowing without a user violates the user column's NOT NULL constraint. */
    | UserRequired
    /** Saving an inventory outside the small-integer range is refused by the database. */
    | InventoryOutOfRange

  datatype Response<+T> = Ok(value: T) | Err(error: Error)

  /** The state committed by a request together with what the request answered. */
  datatype Step<+T> = Step(state: State, response: Response<T>)

  /** Two states hold the same rows in every table; their sequences may differ. */
  predicate SameRows(a: State, b: State) {
    a.books == b.books && a.borrowings == b.borrowings && a.payments == b.payments
  }

  /**
   * A `transaction.atomic()` block: the writes `attempt` made are kept when
   * it succeeds and discarded, back to the rows of `before`, when it fails.
   * A sequence is not transactional, so the ids the block drew stay drawn.
   */
  function Atomic<T>(before: State, attempt: Step<T>): (r: Step<T>)
    ensures r.response == attempt.response
    ensures r.response.Err? ==> SameRows(r.state, before) && r.state.nextBorrowingId == attempt.state.nextBorrowingId
    ensures r.response.Ok? ==> r.state == attempt.state
  {
    if attempt.response.Err? then Step(before.(nextBorrowingId := attempt.state.nextBorrowingId), attempt.response)
    else attempt
  }

  /** The borrowings of `book` that have not been returned. */
  function ActiveOf(borrowings: map<BorrowingId, Borrowing>, book: BookId): set<BorrowingId> {
    set id | id in borrowings && borrowings[id].book == book && borrowings[id].IsActive()
  }

  /** Copies of `book` the library owns: those on the shelf plus those lent out. */
  function Stock(s: State, book: BookId): int
    requires book in s.books
  {
    s.books[book].inventory + |ActiveOf(s.borrowings, book)|
  }
}

=== FILE: overdue.dfy ===
/** The query part of the daily overdue notification (`notify_overdue_borrowings`, borrowing/tasks.py). */
module Overdue {

  import opened Common
  import opened Borrowings

  /**
   * The bound is the calendar date two days after `today`, compared with a
   * timestamp column, i.e. midnight at the start of that day. `today` counts
   * days in the same frame as timestamps count seconds.
   */
  function DueBound(today: int): Timestamp {
    (today + 2) * SecondsPerDay
  }

  /** A borrowing is reported when it is still out and due strictly before the bound. */
  predicate IsReported(b: Borrowing, today: int) {
    b.expectedReturnDate < DueBound(today) && b.actualReturnDate.None?
  }

  /**
   * Selects the borrowings to report and counts them, one row at a time as
   * the task walks its query result. Reading changes no row.
   */
  method SelectOverdue(rows: map<BorrowingId, Borrowing>, today: int) returns (selected: set<BorrowingId>, count: nat)
    ensures selected <= rows.Keys
    ensures forall id :: id in selected ==> rows[id].IsActive()
    ensures forall id :: id in selected ==> rows[id].expectedReturnDate < DueBound(today)
    ensures forall id :: id in rows && IsReported(rows[id], today) ==> id in selected
    ensures count == |selected|
  {
    selected := {};
    count := 0;
    var todo := rows.Keys;
    while todo != {}
      invariant todo <= rows.Keys
      invariant selected <= rows.Keys - todo
      invariant forall id :: id in selected ==> IsReported(rows[id], today)
      invariant forall id :: id in rows.Keys - todo && IsReported(rows[id], today) ==> id in selected
      invariant count == |selected|
      decreases todo
    {
      var id :| id in todo;
      if IsReported(rows[id], today) {
        selected := selected + {id};
        count := count + 1;
      }
      todo := todo - {id};
    }
  }

  /** A borrowing due exactly at the bound is not reported: the comparison is strict. */
  lemma BoundIsStrict(b: Borrowing, today: int)
    requires b.expectedReturnDate == DueBound(today)
    ensures !IsReported(b, today)
  {
  }

  /** Moving `today` forward never drops a reported borrowing. */
  lemma ReportedGrowsWithTime(b: Borrowing, today: int, later: int)
    requires today <= later && IsReported(b, today)
    ensures IsReported(b, later)
  {
  }
}

=== FILE: payment_sweep.dfy ===
/** The periodic expiry of stale pending payments (`expire_pending_payments`, payment/tasks.py). */
module PaymentSweep {

  import opened Common
  import opened Payments

  /** A payment the sweep expires: still pending and created more than one day before `now`. */
  predicate IsStale(p: PaymentRecord, now: Timestamp) {
    p.status == Some(Pending) && p.createdAt < now - SecondsPerDay
  }

  function Expire(p: PaymentRecord): PaymentRecord {
    p.(status := Some(Expired))
  }

  /** The payment table after one sweep at `now`. */
  function ExpirePending(ps: map<PaymentId, PaymentRecord>, now: Timestamp): (r: map<PaymentId, PaymentRecord>)
    ensures r.Keys == ps.Keys
    ensures forall id :: id in r ==> !IsStale(r[id], now)
    ensures forall id :: id in r ==> r[id].(status := ps[id].status) == ps[id]
    ensures forall id :: id in r && r[id].status != ps[id].status ==>
              ps[id].status == Some(Pending) && r[id].status == Some(Expired)
  {
    map id | id in ps :: if IsStale(ps[id], now) then Expire(ps[id]) else ps[id]
  }

  /**
   * The sweep as the task runs it: fetch the pending payments, then expire
   * each one created more than a day before the clock reads when that row
   * is checked. `clock(k)` is the clock's reading at the k-th row; the clock
   * never runs backwards.
   */
  method ExpirePendingPayments(ps: map<PaymentId, PaymentRecord>, clock: nat -> Timestamp) returns (r: map<PaymentId, PaymentRecord>)
    requires forall i: nat, j: nat :: i <= j ==> clock(i) <= clock(j)
    ensures r.Keys == ps.Keys
    ensures forall id :: id in ps && IsStale(ps[id], clock(0)) ==> r[id] == Expire(ps[id])
    ensures forall id :: id in ps && !IsStale(ps[id], clock(|ps|)) ==> r[id] == ps[id]
    ensures forall id :: id in ps && r[id] != ps[id] ==>
              ps[id].status == Some(Pending) && r[id] == Expire(ps[id])
    ensures (forall i: nat :: clock(i) == clock(0)) ==> r == ExpirePending(ps, clock(0))
  {
    var pending := set id | id in ps && ps[id].status == Some(Pending);
    assert pending <= ps.Keys;
    SubsetCardinality(pending, ps.Keys);
    r := ps;
    var todo := pending;
    var k: nat := 0;
    while todo != {}
      invariant todo <= pending
      invariant k + |todo| == |pending|
      invariant r.Keys == ps.Keys
      invariant forall id :: id in ps && id !in pending - todo ==> r[id] == ps[id]
      invariant forall id :: id in pending - todo && IsStale(ps[id], clock(0)) ==> r[id] == Expire(ps[id])
      invariant forall id :: id in pending - todo && r[id] != ps[id] ==>
                  r[id] == Expire(ps[id]) && IsStale(ps[id], clock(k))
      decreases todo
    {
      var id :| id in todo;
      var now := clock(k);
      if ps[id].createdAt < now - SecondsPerDay {
        r := r[id := Expire(ps[id])];
      }
      todo := todo - {id};
      k := k + 1;
    }
    assert k <= |ps|;
  }

  lemma {:induction false} SubsetCardinality<T>(a: set<T>, b: set<T>)
    requires a <= b
    ensures |a| <= |b|
    decreases b
  {
    if b != {} {
      var x :| x in b;
      SubsetCardinality(a - {x}, b - {x});
    }
  }

  /** Each stale pending payment becomes expired; every other payment is left exactly as it was. */
  lemma SweepEffect(ps: map<PaymentId, PaymentRecord>, now: Timestamp, id: PaymentId)
    requires id in ps
    ensures (ps[id].status == Some(Pending) && ps[id].createdAt < now - SecondsPerDay) ==>
              ExpirePending(ps, now)[id].status == Some(Expired)
    ensures ps[id].status != Some(Pending) ==> ExpirePending(ps, now)[id] == ps[id]
    ensures ps[id].createdAt >= now - SecondsPerDay ==> ExpirePending(ps, now)[id] == ps[id]
  {
  }

  /** For a fixed `now`, sweeping twice is the same as sweeping once. */
  lemma SweepIdempotent(ps: map<PaymentId, PaymentRecord>, now: Timestamp)
    ensures ExpirePending(ExpirePending(ps, now), now) == ExpirePending(ps, now)
  {
    var once := ExpirePending(ps, now);
    var twice := ExpirePending(once, now);
    assert forall id :: id in once ==> twice[id] == once[id];
  }

  /** A later sweep never expires fewer payments than an earlier one at the same table. */
  lemma StaleGrowsWithTime(p: PaymentRecord, now: Timestamp, later: Timestamp)
    requires now <= later && IsStale(p, now)
    ensures IsStale(p, later)
  {
  }
}

=== FILE: payments.dfy ===
/** The `Payment` record, its two enums and its listing order (payment/models.py). */
module Payments {

  import opened Common
  import opened Borrowings

  type PaymentId = nat

  datatype PaymentStatus = Pending | Paid | Expired
  datatype PaymentType = Payment | Fine

  function StatusValue(s: PaymentStatus): string {
    match s
    case Pending => "pending"
    case Paid => "paid"
    case Expired => "expired"
  }

  function ParseStatus(v: string): (r: Option<PaymentStatus>)
    ensures r.Some? <==> v in {"pending", "paid", "expired"}
  {
    if v == "pending" then Some(Pending)
    else if v == "paid" then Some(Paid)
    else if v == "expired" then Some(Expired)
    else None
  }

  function TypeValue(t: PaymentType): string {
    match t
    case Payment => "payment"
    case Fine => "fine"
  }

  function ParseType(v: string): (r: Option<PaymentType>)
    ensures r.Some? <==> v in {"payment", "fine"}
  {
    if v == "payment" then Some(Payment)
    else if v == "fine" then Some(Fine)
    else None
  }

  /** The stored value of each status reads back as that status, and distinct statuses store distinct values. */
  lemma StatusRoundTrip(s: PaymentStatus, v: string)
    ensures ParseStatus(StatusValue(s)) == Some(s)
    ensures ParseStatus(v).Some? ==> StatusValue(ParseStatus(v).value) == v
  {
  }

  lemma TypeRoundTrip(t: PaymentType, v: string)
    ensures ParseType(TypeValue(t)) == Some(t)
    ensures ParseType(v).Some? ==> TypeValue(ParseType(v).value) == v
  {
  }

  /** `status` and `type` are nullable columns; the session handle comes from the payment provider. */
  datatype PaymentRecord = PaymentRecord(
    borrowing: BorrowingId,
    status: Option<PaymentStatus>,
    paymentType: Option<PaymentType>,
    createdAt: Timestamp,
    sessionId: Option<string>,
    sessionUrl: Option<string>,
    moneyToPay: Cents)

  const MaxSessionIdLength: nat := 255
  /** A `URLField` is a character column of 200 characters by default. */
  const MaxSessionUrlLength: nat := 200

  /** What the payment table's columns enforce. */
  predicate ValidPayment(p: PaymentRecord) {
    && ValidMoney(p.moneyToPay)
    && (p.sessionId.Some? ==> |p.sessionId.value| <= MaxSessionIdLength)
    && (p.sessionUrl.Some? ==> |p.sessionUrl.value| <= MaxSessionUrlLength)
  }

  /**
   * A payment created for `borrowing` at `now` with only the required fields
   * given: every other column takes its declared default.
   */
  function NewPayment(borrowing: BorrowingId, now: Timestamp): (r: PaymentRecord)
    ensures ValidPayment(r)
    ensures r.borrowing == borrowing && r.createdAt == now
    ensures r.status == Some(Pending) && r.paymentType == Some(Payment)
    ensures r.moneyToPay == 0 && r.sessionId.None? && r.sessionUrl.None?
  {
    PaymentRecord(borrowing, Some(Pending), Some(Payment), now, None, None, 0)
  }

  /** The default listing order: newest `created_at` first. Rows with equal stamps may come in any order. */
  predicate NewestFirst(ps: seq<PaymentRecord>) {
    forall i, j :: 0 <= i < j < |ps| ==> ps[i].createdAt >= ps[j].createdAt
  }

  /** Every row of `ps` is at most as new as `t`. */
  predicate NoNewerThan(ps: seq<PaymentRecord>, t: Timestamp) {
    forall k :: 0 <= k < |ps| ==> ps[k].createdAt <= t
  }

  /** Places `p` in front of the first row that is not newer than it. */
  function InsertNewestFirst(p: PaymentRecord, ps: seq<PaymentRecord>): (r: seq<PaymentRecord>)
    ensures multiset(r) == multiset(ps) + multiset{p}
    ensures |r| == |ps| + 1
  {
    if ps == [] || p.createdAt >= ps[0].createdAt then [p] + ps
    else
      assert ps == [ps[0]] + ps[1..];
      [ps[0]] + InsertNewestFirst(p, ps[1..])
  }

  /** Inserting a row no newer than `t` into rows no newer than `t` gives rows no newer than `t`. */
  lemma {:induction false} InsertKeepsBound(p: PaymentRecord, ps: seq<PaymentRecord>, t: Timestamp)
    requires NoNewerThan(ps, t) && p.createdAt <= t
    ensures NoNewerThan(InsertNewestFirst(p, ps), t)
  {
    if ps != [] && p.createdAt < ps[0].createdAt {
      InsertKeepsBound(p, ps[1..], t);
    }
  }

  /** Inserting into a newest-first list keeps it newest-first. */
  lemma {:induction false} InsertKeepsNewestFirst(p: PaymentRecord, ps: seq<PaymentRecord>)
    requires NewestFirst(ps)
    ensures NewestFirst(InsertNewestFirst(p, ps))
  {
    if ps != [] && p.createdAt < ps[0].createdAt {
      InsertKeepsNewestFirst(p, ps[1..]);
      InsertKeepsBound(p, ps[1..], ps[0].createdAt);
      var rest := InsertNewestFirst(p, ps[1..]);
      assert InsertNewestFirst(p, ps) == [ps[0]] + rest;
    }
  }

  /** The rows of the payment table in listing order: the same rows, newest first. */
  function ListNewestFirst(rows: seq<PaymentRecord>): (r: seq<PaymentRecord>)
    ensures NewestFirst(r)
    ensures multiset(r) == multiset(rows)
    ensures |r| == |rows|
  {
    if rows == [] then []
    else
      assert rows == [rows[0]] + rows[1..];
      var rest := ListNewestFirst(rows[1..]);
      InsertKeepsNewestFirst(rows[0], rest);
      InsertNewestFirst(rows[0], rest)
  }
}

=== FILE: queries.dfy ===
/** The borrowing list filter (`BorrowingViewSet.get_queryset`, borrowing/views.py). */
module BorrowingQueries {

  import opened Common
  import opened Borrowings

  /**
   * The list request's query parameters. `isActive` is the raw string; the
   * two ids are already read as numbers, with `None` for a parameter that is
   * absent or empty (an empty string does not filter).
   */
  datatype Params = Params(isActive: Option<string>, userId: Option<UserId>, bookId: Option<BookId>)

  const NoParams: Params := Params(None, None, None)

  /** The declarative meaning of a request: a row is listed when it meets every condition given. */
  predicate Matches(b: Borrowing, p: Params) {
    && (p.isActive == Some("true") ==> b.IsActive())
    && (p.isActive == Some("false") ==> !b.IsActive())
    && (p.userId.Some? ==> b.user == p.userId.value)
    && (p.bookId.Some? ==> b.book == p.bookId.value)
  }

  function WhereActive(rows: map<BorrowingId, Borrowing>, active: bool): (r: map<BorrowingId, Borrowing>)
    ensures forall id :: id in r <==> id in rows && rows[id].IsActive() == active
    ensures forall id :: id in r ==> r[id] == rows[id]
  {
    map id | id in rows && rows[id].IsActive() == active :: rows[id]
  }

  function WhereUser(rows: map<BorrowingId, Borrowing>, user: UserId): (r: map<BorrowingId, Borrowing>)
    ensures forall id :: id in r <==> id in rows && rows[id].user == user
    ensures forall id :: id in r ==> r[id] == rows[id]
  {
    map id | id in rows && rows[id].user == user :: rows[id]
  }

  function WhereBook(rows: map<BorrowingId, Borrowing>, book: BookId): (r: map<BorrowingId, Borrowing>)
    ensures forall id :: id in r <==> id in rows && rows[id].book == book
    ensures forall id :: id in r ==> r[id] == rows[id]
  {
    map id | id in rows && rows[id].book == book :: rows[id]
  }

  /**
   * Narrows `rows` by each parameter in turn: `is_active` ("true" or
   * "false"; any other value is ignored), then `user_id`, then `book_id`.
   */
  function FilterBorrowings(rows: map<BorrowingId, Borrowing>, p: Params): (r: map<BorrowingId, Borrowing>)
    ensures forall id :: id in r <==> id in rows && Matches(rows[id], p)
    ensures forall id :: id in r ==> r[id] == rows[id]
  {
    var q0 := rows;
    var q1 := if p.isActive == Some("true") then WhereActive(q0, true) else q0;
    var q2 := if p.isActive == Some("false") then WhereActive(q1, false) else q1;
    var q3 := if p.userId.Some? then WhereUser(q2, p.userId.value) else q2;
    if p.bookId.Some? then WhereBook(q3, p.bookId.value) else q3
  }

  /** Without parameters every borrowing is listed. */
  lemma NoParamsListsAll(rows: map<BorrowingId, Borrowing>)
    ensures FilterBorrowings(rows, NoParams) == rows
  {
  }

  /** `user_id` alone lists exactly that user's borrowings. */
  lemma UserFilterExact(rows: map<BorrowingId, Borrowing>, user: UserId)
    ensures FilterBorrowings(rows, Params(None, Some(user), None)) == WhereUser(rows, user)
  {
  }

  /** `book_id` alone lists exactly that book's borrowings. */
  lemma BookFilterExact(rows: map<BorrowingId, Borrowing>, book: BookId)
    ensures FilterBorrowings(rows, Params(None, None, Some(book))) == WhereBook(rows, book)
  {
  }

  /** `is_active=true` lists exactly the borrowings without a return date. */
  lemma ActiveFilterExact(rows: map<BorrowingId, Borrowing>)
    ensures var r := FilterBorrowings(rows, Params(Some("true"), None, None));
            forall id :: id in r <==> id in rows && rows[id].actualReturnDate.None?
  {
  }

  /** The filters narrow by conjunction: the result is a sub-map, and the order they are applied in does not matter. */
  lemma FiltersCommute(rows: map<BorrowingId, Borrowing>, user: UserId, book: BookId, active: bool)
    ensures WhereUser(WhereBook(rows, book), user) == WhereBook(WhereUser(rows, user), book)
    ensures WhereActive(WhereUser(rows, user), active) == WhereUser(WhereActive(rows, active), user)
    ensures WhereActive(WhereBook(rows, book), active) == WhereBook(WhereActive(rows, active), book)
    ensures FilterBorrowings(rows, Params(None, Some(user), Some(book))).Keys <= rows.Keys
  {
  }

  /** An `is_active` value other than "true" or "false" is ignored. */
  lemma OtherActiveValueIgnored(rows: map<BorrowingId, Borrowing>, p: Params)
    requires p.isActive != Some("true") && p.isActive != Some("false")
    ensures FilterBorrowings(rows, p) == FilterBorrowings(rows, p.(isActive := None))
  {
  }

  /** The outcome of the filter as written: the listed rows, or the error raised while building the query. */
  datatype Listing = Listed(rows: map<BorrowingId, Borrowing>) | LookupTypeError

  /**
   * The filter as the view is written: `is_active` compares the timestamp
   * column with the booleans `False` / `True` instead of testing for null.
   * The ORM converts a compared value to a timestamp before querying, and a
   * boolean is not one, so the request fails with a type error.
   */
  function FilterAsWritten(rows: map<BorrowingId, Borrowing>, p: Params): (r: Listing)
    ensures p.isActive == Some("true") || p.isActive == Some("false") <==> r.LookupTypeError?
    ensures r.Listed? ==> r.rows == FilterBorrowings(rows, p)
  {
    if p.isActive == Some("true") || p.isActive == Some("false") then LookupTypeError
    else
      var q3 := if p.userId.Some? then WhereUser(rows, p.userId.value) else rows;
      Listed(if p.bookId.Some? then WhereBook(q3, p.bookId.value) else q3)
  }

  /**
   * The active-filter request the view's own test makes: an active and a
   * returned borrowing, `?is_active=true`. The test expects the active one
   * listed; the view as written fails.
   */
  lemma ActiveFilterAsWrittenFails()
    ensures var rows := map[1 := Borrowing(5, 2, 0, SecondsPerDay, None),
                            2 := Borrowing(5, 2, 0, SecondsPerDay, Some(10))];
            var p := Params(Some("true"), None, None);
            && FilterAsWritten(rows, p) == LookupTypeError
            && FilterBorrowings(rows, p) == map[1 := rows[1]]
  {
    var rows := map[1 := Borrowing(5, 2, 0, SecondsPerDay, None),
                    2 := Borrowing(5, 2, 0, SecondsPerDay, Some(10))];
    var p := Params(Some("true"), None, None);
    assert FilterBorrowings(rows, p).Keys == {1};
  }
}

=== FILE: traces.dfy ===
/**
 * Sequences of requests against the library: every borrow, return and
 * expiry sweep is one sequential step, so the per-step facts extend to runs.
 */
module Traces {

  import opened Common
  import opened Books
  import opened Borrowings
  import opened Library
  import opened Workflow
  import opened WorkflowProperties
  import opened PaymentSweep

  datatype Request =
    | BorrowRequest(user: UserId, book: BookId, expected: Timestamp, now: Timestamp)
    /** A call of the return serializer's update: the caller may leave the date null. */
    | ReturnRequest(id: BorrowingId, date: Option<Timestamp>)
    | ExpirySweep(now: Timestamp)

  /** The state committed after one request, whether it succeeded or was refused. */
  function Apply(s: State, req: Request): (r: State)
    requires Valid(s)
    ensures Valid(r)
    ensures r.books.Keys == s.books.Keys
  {
    match req
    case BorrowRequest(user, book, expected, now) =>
      BorrowPreservesValid(s, user, book, expected, now);
      Borrow(s, user, book, expected, now).state
    case ReturnRequest(id, date) =>
      ReturnAsWrittenPreservesValid(s, id, date);
      ReturnAsWritten(s, id, date).state
    case ExpirySweep(now) =>
      s.(payments := ExpirePending(s.payments, now))
  }

  function Run(s: State, reqs: seq<Request>): (r: State)
    requires Valid(s)
    ensures Valid(r)
    ensures r.books.Keys == s.books.Keys
    decreases |reqs|
  {
    if reqs == [] then s else Run(Apply(s, reqs[0]), reqs[1..])
  }

  /** Every return request in `reqs` carries a date. */
  predicate DatedReturns(reqs: seq<Request>) {
    forall i :: 0 <= i < |reqs| && reqs[i].ReturnRequest? ==> reqs[i].date.Some?
  }

  lemma ApplyConservesStock(s: State, req: Request, b: BookId)
    requires Valid(s) && b in s.books
    requires req.ReturnRequest? ==> req.date.Some?
    ensures Stock(Apply(s, req), b) == Stock(s, b)
  {
    match req
    case BorrowRequest(user, book, expected, now) =>
      BorrowConservesStock(s, user, book, expected, now, b);
    case ReturnRequest(id, date) =>
      ReturnConservesStock(s, id, date.value, b);
    case ExpirySweep(now) =>
  }

  /**
   * Over any run whose returns carry a date, every book's shelf count plus
   * its active borrowings stays the same. A dateless return breaks this
   * (`NullReturnDateInflatesStock`).
   */
  lemma {:induction false} RunConservesStock(s: State, reqs: seq<Request>, b: BookId)
    requires Valid(s) && b in s.books
    requires DatedReturns(reqs)
    ensures Stock(Run(s, reqs), b) == Stock(s, b)
    ensures Run(s, reqs).books[b].inventory >= 0
    decreases |reqs|
  {
    if reqs != [] {
      assert reqs[0].ReturnRequest? ==> reqs[0].date.Some?;
      ApplyConservesStock(s, reqs[0], b);
      assert DatedReturns(reqs[1..]) by {
        forall i | 0 <= i < |reqs[1..]| && reqs[1..][i].ReturnRequest?
          ensures reqs[1..][i].date.Some?
        {
          assert reqs[1..][i] == reqs[i + 1];
        }
      }
      RunConservesStock(Apply(s, reqs[0]), reqs[1..], b);
    }
  }

  lemma ApplyKeepsRows(s: State, req: Request, k: BorrowingId)
    requires Valid(s) && k in s.borrowings
    ensures var t := Apply(s, req);
            && k in t.borrowings && SameIdentity(s.borrowings[k], t.borrowings[k])
            && (!s.borrowings[k].IsActive() ==> t.borrowings[k] == s.borrowings[k])
  {
    match req
    case BorrowRequest(user, book, expected, now) =>
      TransitionsKeepRows(s, user, book, expected, now, 0, 0, k);
    case ReturnRequest(id, date) =>
      if date.Some? {
        TransitionsKeepRows(s, 0, 0, 0, 0, id, date.value, k);
      }
    case ExpirySweep(now) =>
  }

  /**
   * Over any run no borrowing disappears, its owner, book, borrow date and
   * expected return date never change, and once returned its return date
   * is never changed again.
   */
  lemma {:induction false} RunKeepsRows(s: State, reqs: seq<Request>, k: BorrowingId)
    requires Valid(s) && k in s.borrowings
    ensures var t := Run(s, reqs);
            && k in t.borrowings && SameIdentity(s.borrowings[k], t.borrowings[k])
            && (!s.borrowings[k].IsActive() ==> t.borrowings[k] == s.borrowings[k])
    decreases |reqs|
  {
    if reqs != [] {
      ApplyKeepsRows(s, reqs[0], k);
      RunKeepsRows(Apply(s, reqs[0]), reqs[1..], k);
    }
  }

  lemma ApplyPreservesWellFormed(s: State, req: Request)
    requires WellFormed(s)
    ensures WellFormed(Apply(s, req))
  {
    match req
    case BorrowRequest(user, book, expected, now) =>
      BorrowPreservesWellFormed(s, user, book, expected, now);
    case ReturnRequest(id, date) =>
      ReturnPreservesWellFormed(s, id, date);
    case ExpirySweep(now) =>
  }

  /**
   * Over any run from a well-formed state, books stay valid and every
   * borrowing stays due after it was made.
   */
  lemma {:induction false} RunPreservesWellFormed(s: State, reqs: seq<Request>)
    requires WellFormed(s)
    ensures WellFormed(Run(s, reqs))
    decreases |reqs|
  {
    if reqs != [] {
      ApplyPreservesWellFormed(s, reqs[0]);
      RunPreservesWellFormed(Apply(s, reqs[0]), reqs[1..]);
    }
  }
}

=== FILE: workflow.dfy ===
/**
 * The borrow and return transitions (borrowing/serializers.py:
 * `BorrowingSerializer.create` and `BorrowingReturnBookSerializer.update`).
 */
module Workflow {

  import opened Common
  import opened Books
  import opened Borrowings
  import opened Library

  /** Writes the decremented or incremented inventory of `book`, as `book.save()` does. */
  function SaveInventory(s: State, book: BookId, inventory: int): (r: Step<()>)
    requires book in s.books
    ensures r.response.Err? <==> !ValidInventory(inventory)
    ensures r.response.Err? ==> r.response.error == InventoryOutOfRange && r.state == s
    ensures r.response.Ok? ==> r.state == s.(books := s.books[book := s.books[book].(inventory := inventory)])
  {
    if ValidInventory(inventory) then
      Step(s.(books := s.books[book := s.books[book].(inventory := inventory)]), Ok(()))
    else
      Step(s, Err(InventoryOutOfRange))
  }

  /**
   * Inserts a borrowing row. The row's id is drawn from the sequence before
   * any constraint is checked, so a row the date-order constraint rejects as
   * an integrity error still uses up its id.
   */
  function InsertBorrowing(s: State, row: Borrowing): (r: Step<BorrowingId>)
    ensures r.response.Err? <==> !DatesInOrder(row)
    ensures r.response.Err? ==>
              && r.response.error == InvalidDateRange
              && r.state == s.(nextBorrowingId := s.nextBorrowingId + 1)
    ensures r.response.Ok? ==>
              && r.response.value == s.nextBorrowingId
              && r.state == s.(borrowings := s.borrowings[s.nextBorrowingId := row],
                               nextBorrowingId := s.nextBorrowingId + 1)
  {
    if DatesInOrder(row) then
      var id := s.nextBorrowingId;
      Step(s.(borrowings := s.borrowings[id := row], nextBorrowingId := id + 1), Ok(id))
    else
      Step(s.(nextBorrowingId := s.nextBorrowingId + 1), Err(InvalidDateRange))
  }

  /**
   * The writes inside the borrow's atomic block: decrement, then create the
   * row. A row without a user breaks the user column's NOT NULL constraint,
   * which the database reports before the date-order check.
   */
  function BorrowWrites(s: State, user: Option<UserId>, book: BookId, expected: Timestamp, now: Timestamp): Step<BorrowingId>
    requires book in s.books
  {
    var decremented := SaveInventory(s, book, s.books[book].inventory - 1);
    if decremented.response.Err? then Step(s, Err(decremented.response.error))
    else if user.None? then
      Step(decremented.state.(nextBorrowingId := decremented.state.nextBorrowingId + 1), Err(UserRequired))
    else InsertBorrowing(decremented.state, NewBorrowing(user.value, book, expected, now))
  }

  /**
   * `user` borrows a copy of `book` at time `now`, promising to return it by
   * `expected`. The stock check comes first; the decrement and the insert
   * run in one atomic block, so a rejected date undoes the decrement.
   */
  function Borrow(s: State, user: UserId, book: BookId, expected: Timestamp, now: Timestamp): (r: Step<BorrowingId>)
    requires Valid(s)
    ensures r.response.Err? ==> SameRows(r.state, s)
    ensures r.response == Err(UnknownBook) || r.response == Err(OutOfStock) ==> r.state == s
    ensures r.response == Err(InvalidDateRange) ==> r.state.nextBorrowingId == s.nextBorrowingId + 1
    ensures r.response == Err(UnknownBook) <==> book !in s.books
    ensures r.response == Err(OutOfStock) <==> book in s.books && s.books[book].inventory == 0
    ensures r.response == Err(InvalidDateRange) <==>
              book in s.books && s.books[book].inventory > 0 && expected <= now
    ensures r.response.Ok? <==> book in s.books && s.books[book].inventory > 0 && expected > now
    ensures r.response.Ok? ==>
              var id := r.response.value;
              && id !in s.borrowings
              && r.state.nextBorrowingId == s.nextBorrowingId + 1
              && r.state.borrowings == s.borrowings[id := NewBorrowing(user, book, expected, now)]
              && r.state.books == s.books[book := s.books[book].(inventory := s.books[book].inventory - 1)]
              && r.state.payments == s.payments
  {
    if book !in s.books then Step(s, Err(UnknownBook))
    else if s.books[book].inventory > 0 then Atomic(s, BorrowWrites(s, Some(user), book, expected, now))
    else Step(s, Err(OutOfStock))
  }

  /**
   * The serializer's `create` as the view's default `perform_create` calls
   * it: the user is a read-only field of the serializer and is not supplied
   * on save, so the row is created with no user. Every in-stock borrow then fails inside the atomic block:
   * the decrement is undone and only the id the insert drew stays used.
   */
  function BorrowAsWritten(s: State, book: BookId, expected: Timestamp, now: Timestamp): (r: Step<BorrowingId>)
    requires Valid(s)
    ensures SameRows(r.state, s)
    ensures r.response == Err(UserRequired) ==> r.state.nextBorrowingId == s.nextBorrowingId + 1
    ensures r.response != Err(UserRequired) ==> r.state == s
    ensures r.response == Err(UnknownBook) <==> book !in s.books
    ensures r.response == Err(OutOfStock) <==> book in s.books && s.books[book].inventory == 0
    ensures r.response == Err(UserRequired) <==> book in s.books && s.books[book].inventory > 0
  {
    if book !in s.books then Step(s, Err(UnknownBook))
    else if s.books[book].inventory > 0 then Atomic(s, BorrowWrites(s, None, book, expected, now))
    else Step(s, Err(OutOfStock))
  }

  /** The writes inside the return's atomic block: stamp the date, then increment the book's inventory. */
  function ReturnWrites(s: State, id: BorrowingId, date: Option<Timestamp>): Step<Borrowing>
    requires Valid(s) && id in s.borrowings
  {
    var row := s.borrowings[id].(actualReturnDate := date);
    var stamped := s.(borrowings := s.borrowings[id := row]);
    var book := row.book;
    var incremented := SaveInventory(stamped, book, stamped.books[book].inventory + 1);
    if incremented.response.Err? then Step(stamped, Err(incremented.response.error))
    else Step(incremented.state, Ok(row))
  }

  /**
   * Returns borrowing `id` on `date`. Only an active borrowing can be
   * returned; its return date is stamped and one copy goes back on the shelf.
   */
  function ReturnBook(s: State, id: BorrowingId, date: Timestamp): (r: Step<Borrowing>)
    requires Valid(s)
    ensures r.response.Err? ==> r.state == s
    ensures r.response == Err(UnknownBorrowing) <==> id !in s.borrowings
    ensures r.response == Err(AlreadyReturned) <==> id in s.borrowings && !s.borrowings[id].IsActive()
    ensures r.response == Err(InventoryOutOfRange) <==>
              id in s.borrowings && s.borrowings[id].IsActive()
              && s.books[s.borrowings[id].book].inventory == MaxSmallInt
    ensures r.response.Ok? <==>
              (id in s.borrowings && s.borrowings[id].IsActive()
               && s.books[s.borrowings[id].book].inventory < MaxSmallInt)
    ensures r.response.Ok? ==>
              var book := s.borrowings[id].book;
              && r.response.value == s.borrowings[id].(actualReturnDate := Some(date))
              && r.state.borrowings == s.borrowings[id := r.response.value]
              && r.state.books == s.books[book := s.books[book].(inventory := s.books[book].inventory + 1)]
              && r.state.payments == s.payments
              && r.state.nextBorrowingId == s.nextBorrowingId
  {
    if id !in s.borrowings then Step(s, Err(UnknownBorrowing))
    else if s.borrowings[id].actualReturnDate.None? then Atomic(s, ReturnWrites(s, id, Some(date)))
    else Step(s, Err(AlreadyReturned))
  }

  /**
   * The return as the serializer is written: the new return date is whatever
   * the caller supplied, and the caller may leave it null. With a null date
   * the stamped row is still active.
   */
  function ReturnAsWritten(s: State, id: BorrowingId, date: Option<Timestamp>): (r: Step<Borrowing>)
    requires Valid(s)
    ensures r.response.Err? ==> r.state == s
    ensures r.response == Err(UnknownBorrowing) <==> id !in s.borrowings
    ensures r.response == Err(AlreadyReturned) <==> (id in s.borrowings && !s.borrowings[id].IsActive())
    ensures r.response == Err(InventoryOutOfRange) <==>
              (id in s.borrowings && s.borrowings[id].IsActive()
               && s.books[s.borrowings[id].book].inventory == MaxSmallInt)
    ensures r.response.Ok? <==>
              (id in s.borrowings && s.borrowings[id].IsActive()
               && s.books[s.borrowings[id].book].inventory < MaxSmallInt)
    ensures r.response.Ok? ==>
              var book := s.borrowings[id].book;
              && r.response.value == s.borrowings[id].(actualReturnDate := date)
              && r.state.borrowings == s.borrowings[id := r.response.value]
              && r.state.books == s.books[book := s.books[book].(inventory := s.books[book].inventory + 1)]
              && r.state.payments == s.payments
              && r.state.nextBorrowingId == s.nextBorrowingId
    ensures date.Some? ==> r == ReturnBook(s, id, date.value)
  {
    if id !in s.borrowings then Step(s, Err(UnknownBorrowing))
    else if s.borrowings[id].actualReturnDate.None? then Atomic(s, ReturnWrites(s, id, date))
    else Step(s, Err(AlreadyReturned))
  }
}

=== FILE: workflow_properties.dfy ===
/** What the borrow and return transitions preserve and how they compose. */
module WorkflowProperties {

  import opened Common
  import opened Books
  import opened Borrowings
  import opened Library
  import opened Workflow

  /** Adding an active row for `book` adds exactly its id to that book's active set and to no other. */
  lemma ActiveOfAfterInsert(m: map<BorrowingId, Borrowing>, id: BorrowingId, row: Borrowing, b: BookId)
    requires id !in m && row.IsActive()
    ensures b == row.book ==> ActiveOf(m[id := row], b) == ActiveOf(m, b) + {id}
    ensures b != row.book ==> ActiveOf(m[id := row], b) == ActiveOf(m, b)
    ensures b == row.book ==> |ActiveOf(m[id := row], b)| == |ActiveOf(m, b)| + 1
  {
    if b == row.book {
      assert ActiveOf(m[id := row], b) == ActiveOf(m, b) + {id};
    } else {
      assert ActiveOf(m[id := row], b) == ActiveOf(m, b);
    }
  }

  /** Stamping a non-null return date on an active row takes exactly its id out of its book's active set. */
  lemma ActiveOfAfterStamp(m: map<BorrowingId, Borrowing>, id: BorrowingId, date: Timestamp, b: BookId)
    requires id in m && m[id].IsActive()
    ensures var m' := m[id := m[id].(actualReturnDate := Some(date))];
            && (b == m[id].book ==> ActiveOf(m', b) == ActiveOf(m, b) - {id})
            && (b == m[id].book ==> |ActiveOf(m', b)| == |ActiveOf(m, b)| - 1)
            && (b != m[id].book ==> ActiveOf(m', b) == ActiveOf(m, b))
  {
    var m' := m[id := m[id].(actualReturnDate := Some(date))];
    if b == m[id].book {
      assert ActiveOf(m', b) == ActiveOf(m, b) - {id};
      assert id in ActiveOf(m, b);
    } else {
      assert ActiveOf(m', b) == ActiveOf(m, b);
    }
  }

  lemma BorrowPreservesValid(s: State, user: UserId, book: BookId, expected: Timestamp, now: Timestamp)
    requires Valid(s)
    ensures Valid(Borrow(s, user, book, expected, now).state)
  {
  }

  lemma ReturnPreservesValid(s: State, id: BorrowingId, date: Timestamp)
    requires Valid(s)
    ensures Valid(ReturnBook(s, id, date).state)
  {
  }

  /** The return as written keeps the schema constraints too, whatever date it is given. */
  lemma ReturnAsWrittenPreservesValid(s: State, id: BorrowingId, date: Option<Timestamp>)
    requires Valid(s)
    ensures Valid(ReturnAsWritten(s, id, date).state)
  {
  }

  /**
   * A borrow from a well-formed state leaves it well-formed: the new row is
   * due after it was made, because the date check refuses any other.
   */
  lemma BorrowPreservesWellFormed(s: State, user: UserId, book: BookId, expected: Timestamp, now: Timestamp)
    requires WellFormed(s)
    ensures WellFormed(Borrow(s, user, book, expected, now).state)
  {
  }

  lemma ReturnPreservesWellFormed(s: State, id: BorrowingId, date: Option<Timestamp>)
    requires WellFormed(s)
    ensures WellFormed(ReturnAsWritten(s, id, date).state)
  {
  }

  /**
   * Borrowing moves one copy from the shelf to a new active borrowing, so
   * every book's stock is unchanged and no inventory goes negative.
   */
  lemma BorrowConservesStock(s: State, user: UserId, book: BookId, expected: Timestamp, now: Timestamp, b: BookId)
    requires Valid(s) && b in s.books
    ensures var r := Borrow(s, user, book, expected, now);
            b in r.state.books && Stock(r.state, b) == Stock(s, b) && r.state.books[b].inventory >= 0
  {
    var r := Borrow(s, user, book, expected, now);
    if r.response.Ok? {
      ActiveOfAfterInsert(s.borrowings, r.response.value, NewBorrowing(user, book, expected, now), b);
    }
  }

  /** Returning moves one copy from an active borrowing back to the shelf. */
  lemma ReturnConservesStock(s: State, id: BorrowingId, date: Timestamp, b: BookId)
    requires Valid(s) && b in s.books
    ensures var r := ReturnBook(s, id, date);
            b in r.state.books && Stock(r.state, b) == Stock(s, b) && r.state.books[b].inventory >= 0
  {
    var r := ReturnBook(s, id, date);
    if r.response.Ok? {
      ActiveOfAfterStamp(s.borrowings, id, date, b);
    }
  }

  /** Borrowing a book and then returning that borrowing leaves every inventory as it was. */
  lemma BorrowThenReturnRestoresInventory(s: State, user: UserId, book: BookId, expected: Timestamp,
                                          now: Timestamp, date: Timestamp)
    requires Valid(s)
    requires Borrow(s, user, book, expected, now).response.Ok?
    ensures var r1 := Borrow(s, user, book, expected, now);
            var r2 := ReturnBook(r1.state, r1.response.value, date);
            && r2.response.Ok?
            && r2.state.books == s.books
            && r2.state.borrowings[r1.response.value].actualReturnDate == Some(date)
  {
    BorrowPreservesValid(s, user, book, expected, now);
  }

  /**
   * A borrowing is returned at most once: a second return is refused,
   * commits nothing, and the inventory has grown by exactly one overall.
   */
  lemma ReturnTwiceReturnsOnce(s: State, id: BorrowingId, d1: Timestamp, d2: Timestamp)
    requires Valid(s)
    requires ReturnBook(s, id, d1).response.Ok?
    ensures var r1 := ReturnBook(s, id, d1);
            var r2 := ReturnBook(r1.state, id, d2);
            var book := s.borrowings[id].book;
            && r2.response == Err(AlreadyReturned)
            && r2.state == r1.state
            && r2.state.books[book].inventory == s.books[book].inventory + 1
            && r2.state.borrowings[id].actualReturnDate == Some(d1)
  {
    ReturnPreservesValid(s, id, d1);
  }

  /**
   * Neither transition rewrites an existing borrowing's owner, book or dates,
   * and a borrowing already returned keeps its return date.
   */
  lemma TransitionsKeepRows(s: State, user: UserId, book: BookId, expected: Timestamp, now: Timestamp,
                            id: BorrowingId, date: Timestamp, k: BorrowingId)
    requires Valid(s) && k in s.borrowings
    ensures var b := Borrow(s, user, book, expected, now).state;
            k in b.borrowings && b.borrowings[k] == s.borrowings[k]
    ensures var t := ReturnBook(s, id, date).state;
            && k in t.borrowings && SameIdentity(s.borrowings[k], t.borrowings[k])
            && (!s.borrowings[k].IsActive() ==> t.borrowings[k] == s.borrowings[k])
  {
  }

  /**
   * The return as written accepts a null return date: the borrowing stays
   * active while a copy is put back on the shelf, so the book's stock grows.
   */
  lemma NullReturnDateInflatesStock(s: State, id: BorrowingId)
    requires Valid(s) && id in s.borrowings && s.borrowings[id].IsActive()
    requires s.books[s.borrowings[id].book].inventory < MaxSmallInt
    ensures var r := ReturnAsWritten(s, id, None);
            var book := s.borrowings[id].book;
            && r.response.Ok?
            && r.state.borrowings[id].IsActive()
            && Stock(r.state, book) == Stock(s, book) + 1
  {
    var r := ReturnAsWritten(s, id, None);
    var book := s.borrowings[id].book;
    assert r.state.borrowings == s.borrowings;
    assert ActiveOf(r.state.borrowings, book) == ActiveOf(s.borrowings, book);
  }

  /**
   * A concrete request: one copy on the shelf and a valid date range. The
   * borrow without a user fails on that constraint and commits no row, only using
   * up id 0, while the borrow given the requesting user succeeds.
   */
  lemma BorrowAsWrittenFails()
    ensures var s := State(map[1 := Book("Dune", "Herbert", 100, None, 1)], map[], map[], 0);
            && Valid(s)
            && BorrowAsWritten(s, 1, SecondsPerDay, 0) == Step(s.(nextBorrowingId := 1), Err(UserRequired))
            && Borrow(s, 7, 1, SecondsPerDay, 0).response == Ok(0)
            && Borrow(s, 7, 1, SecondsPerDay, 0).state.books[1].inventory == 0
  {
  }

  /** A concrete run: one copy, one loan, two returns with a null date leave two copies on the shelf. */
  lemma NullReturnDateTwice()
    ensures var s := State(map[1 := Book("Dune", "Herbert", 100, None, 0)],
                           map[0 := Borrowing(7, 1, 0, SecondsPerDay, None)], map[], 1);
            var r1 := ReturnAsWritten(s, 0, None);
            var r2 := ReturnAsWritten(r1.state, 0, None);
            && Valid(s) && Stock(s, 1) == 1
            && r1.response.Ok? && r2.response.Ok?
            && r2.state.books[1].inventory == 2
            && r2.state.borrowings[0].IsActive()
  {
    var s := State(map[1 := Book("Dune", "Herbert", 100, None, 0)],
                   map[0 := Borrowing(7, 1, 0, SecondsPerDay, None)], map[], 1);
    assert ActiveOf(s.borrowings, 1) == {0};
  }
}
